=== FILE: README.md ===
# Catalogo: a Dafny model of the catalog builder

The catalog builder is a small Next.js back office for a product catalog. This
project models its pure logic in Dafny and proves what that logic guarantees.

- **The printable catalog** (`src/app/catalogo/page.tsx`). The selected products
  are cut into A4 pages of at most nine. Each page gets a grid whose rows and
  columns depend only on how many products it holds. The products offered come
  from the chosen brand and category, and a set of ticked ids decides which of
  them are printed. `toggleProduct` and `toggleAll` change that set.
- **The dashboard filter** (`src/app/page.tsx`). The product list is narrowed by
  brand, by category and by a case-insensitive text search. "Limpiar filtros"
  resets all three.
- **The sidebar** (`src/components/layout/Sidebar.tsx`). It holds the four menu
  entries and the test that decides which entry is highlighted for a path.
- **The product dialog** (`src/components/products/ProductFormModal.tsx`). It
  covers:
  - how the form is filled for a new or an edited product;
  - the image type and size gate;
  - the order of the checks run on submit;
  - the record that is saved, the image whose deletion is requested and the one
    uploaded.
- **The brand form** (`src/app/marcas/page.tsx`). This is the inline
  create/edit form: whether it is shown, which brand it edits, the typed name,
  and the create or update request a submit sends.
- **The data-access layer** (`src/lib/services.ts`). Only its pure parts are
  modelled: the storage path of an upload, the path read back from a public URL
  when an image is deleted, and the flattening of joined brand and category rows.

Modules, one per source file or concern:
- `Wrappers`: `Option` and `Result`.
- `Seqs`: order-preserving filtering and subsequences.
- `Text`: JavaScript `trim`, `startsWith`, `includes`, `indexOf` and
  `split(...).pop()`.
- `Numbers`: `parseInt` and `Number#toString` on integers.
- `Entities`: brand, category and product records.
- `CatalogPages`, `CatalogSelection`, `Dashboard`, `Sidebar`, `ProductForm`,
  `BrandForm` and `Services`.

React state becomes plain values passed through pure functions. A handler that
sets several state variables becomes one function from the old state to the new
one.

Modelling decisions for the printable catalog, each following the code:
- Page capacity is the constant 9 (`ProductsPerPage`), as in the paging loop.
- The grid functions are total. For a count of 0 they give one row and three
  columns, which is what the code's comparisons yield; no page is ever empty.
- The grid table is exact only for counts 1..9. Above 9, three by three
  under-provisions the page (`GridOverflowsBeyondPage`).

## Model

| member | source | states |
|---|---|---|
| CatalogPages.Paginate | src/app/catalogo/page.tsx:112-117 | The paging loop returns the reference pagination. Concatenating its pages gives back the selection. There are ceil(n/9) pages. Every page but the last holds 9 products, and the last holds ((n-1) mod 9)+1. |
| CatalogPages.PagesPartitionItems | src/app/catalogo/page.tsx:114-117 | Concatenating the pages in order yields the selection: no drop, no duplicate, no reordering. |
| CatalogPages.PageCount | src/app/catalogo/page.tsx:112-117 | The number of pages is ceil(n/9), so an empty selection has no pages. |
| CatalogPages.PageWindows | src/app/catalogo/page.tsx:115-116 | Page k is exactly the window of products 9k up to 9k+9, clamped to the end of the selection. |
| CatalogPages.PageSizes | src/app/catalogo/page.tsx:112-117 | Every page holds 1 to 9 products. All but the last are full. The last holds ((n-1) mod 9)+1. |
| CatalogPages.Slice | src/app/catalogo/page.tsx:116 | `slice(i, i+9)` with both bounds clamped: an in-range window, or empty when the start is past the end. |
| CatalogPages.GridRows | src/app/catalogo/page.tsx:129-133 | The rows are between 1 and 3. For a page of 1..9 they are the fewest rows of three that hold it. |
| CatalogPages.GridCols | src/app/catalogo/page.tsx:122-127 | The columns are between 1 and 3. For a page of 1..9 they are the fewest columns that hold it in the chosen rows. |
| CatalogPages.GridFitsPage | src/app/catalogo/page.tsx:122-133 | For 1..9 products the grid has at least as many cells as products. Dropping a row or a column would leave too few. |
| CatalogPages.GridOverflowsBeyondPage | src/app/catalogo/page.tsx:122-133 | Above nine products the table's grid has fewer cells than products, so it is only meant for pages of up to nine. |
| CatalogPages.PrintLayout | src/app/catalogo/page.tsx:307-310 | Each printed page holds its window of 1..9 products, laid out on exactly `GridRows` x `GridCols` of its own count (a grid with enough cells), and is numbered k+1 of the page count. |
| CatalogPages.ExampleLayouts | src/app/catalogo/page.tsx:112-133 | 20 products give pages of 9, 9 and 2, the last on a 1 x 2 grid. 9 products give one 3 x 3 page. 1 product gives one 1 x 1 page. |
| CatalogSelection.LoadProducts | src/app/catalogo/page.tsx:52-72 | With no brand the list empties and the ticks are kept. A failed fetch leaves the list and the ticks as they were. Otherwise the list is the order-preserving sublist of the fetched products of that brand (and category, when chosen), each with its multiplicity, and every one of them is ticked. |
| CatalogSelection.ToggleProduct | src/app/catalogo/page.tsx:79-89 | The toggled id flips membership and every other id keeps its membership. |
| CatalogSelection.ToggleProductTwice | src/app/catalogo/page.tsx:79-89 | Toggling the same id twice restores the selection. |
| CatalogSelection.ToggleAll | src/app/catalogo/page.tsx:91-97 | The result is always either empty or every product id. It is empty when the tick count equals the product count, and otherwise every product id (which is also empty when there are no products). |
| CatalogSelection.ToggleAllDecidesAllSelected | src/app/catalogo/page.tsx:91-97 | With distinct ids and ticks among the offered products, the size test is the same as "everything ticked": it clears a full selection and otherwise ticks all. |
| CatalogSelection.ToggleAllMisjudgesRepeatedIds | src/app/catalogo/page.tsx:92 | With a repeated id the size test misjudges: with everything ticked, the button ticks all again instead of clearing. |
| CatalogSelection.TogglesStayWithinProducts | src/app/catalogo/page.tsx:79-97 | Both toggles keep the ticked ids among the offered products' ids. |
| CatalogSelection.SelectedProducts | src/app/catalogo/page.tsx:104-106 | The printed products are the order-preserving sublist of offered products whose id is ticked, with each one's multiplicity kept. |
| CatalogSelection.AllTickedPrintsAll | src/app/catalogo/page.tsx:104-106 | With every offered id ticked, all offered products are printed in order. |
| Dashboard.FilterProducts | src/app/page.tsx:51-63 | The listed products are an order-preserving subsequence of all products. A product is listed iff it matches brand, category and search, as often as it occurs in the list. Each non-empty filter holds for every listed product. A missing brand or presentation never answers the search. |
| Dashboard.ClearedFiltersShowAll | src/app/page.tsx:217-221 | After clearing the filters the whole list is shown, in order. |
| Dashboard.NarrowingNeverEnlarges | src/app/page.tsx:61 | Switching a filter on yields a subsequence of the previous list. |
| Dashboard.DeleteCalls | src/app/page.tsx:71-80 | A confirmed delete first deletes the product's image when its URL is non-empty, then deletes the product's row, and makes no other call. |
| Dashboard.FailedDeleteAfterImageRequest | src/app/page.tsx:71-85 | When deleting the row of a product with an image fails, the image deletion call has completed and the row has not been deleted, so the listed row still points at that image. |
| Sidebar.RootActiveOnlyAtRoot | src/components/layout/Sidebar.tsx:35-37 | The root entry is highlighted on "/" and nowhere else. |
| Sidebar.NonRootActiveByPrefix | src/components/layout/Sidebar.tsx:35-37 | Any other entry is highlighted exactly when the path starts with its href. |
| Sidebar.PrefixIgnoresSegments | src/components/layout/Sidebar.tsx:37 | The test compares characters, not segments: "/marcasX" and "/marcas/123" highlight "/marcas". |
| Sidebar.HrefsAreUnnested | src/components/layout/Sidebar.tsx:7-12 | No non-root href of the menu is a prefix of another. |
| Sidebar.AtMostOneActive | src/components/layout/Sidebar.tsx:7-37 | No path highlights two different menu entries. |
| ProductForm.InitialForm | src/components/products/ProductFormModal.tsx:43-67 | An edit form copies the product, with null as "" and the pack label defaulting to "bulto". A new form is blank, with the first brand and category or "", and pack label "bulto". |
| ProductForm.UnitsText | src/components/products/ProductFormModal.tsx:51 | The units text is empty exactly when the product has no units. |
| ProductForm.ParseUnits | src/components/products/ProductFormModal.tsx:124-126 | Empty text saves null. Any other text, blank included, saves its `parseInt` value. |
| ProductForm.UnitsRoundTrip | src/components/products/ProductFormModal.tsx:51 | Showing stored units in the form and saving them back gives the same number. |
| ProductForm.SavedTextRoundTrip | src/components/products/ProductFormModal.tsx:47-50 | A stored description or presentation that is trimmed and not blank, or null, is saved back unchanged. |
| ProductForm.PackLabelOrDefault | src/components/products/ProductFormModal.tsx:52 | The label is the stored one when that is non-empty, and "bulto" when it is null or empty. |
| ProductForm.CheckImage | src/components/products/ProductFormModal.tsx:74-82 | A file is accepted iff its type starts with "image/" and it is at most 5 MiB. A non-image is reported as such whatever its size. |
| ProductForm.SizeLimitIsInclusive | src/components/products/ProductFormModal.tsx:79-82 | An image of exactly 5 MiB passes and one byte more is too large. |
| ProductForm.PickImage | src/components/products/ProductFormModal.tsx:70-86 | A rejected file, or no file, keeps the current choice. An accepted file replaces it. |
| ProductForm.Validate | src/components/products/ProductFormModal.tsx:91-102 | The reported error is the first failing check, in the order blank name, missing brand, missing category. There is no error iff all three pass. |
| ProductForm.BuildPayload | src/components/products/ProductFormModal.tsx:118-131 | The record saved has the trimmed name; description and presentation trimmed, with blank stored as null; units null when empty, otherwise `parseInt` of the text; the form's pack label, or "bulto" when it is empty; the form's brand and category; active, with sort order 0. |
| ProductForm.ExistingImage | src/components/products/ProductFormModal.tsx:107 | The kept image is the edited product's URL when that is non-empty, otherwise none. |
| ProductForm.Submit | src/components/products/ProductFormModal.tsx:88-139 | An invalid form yields the first validation error and nothing else. A valid form updates the edited product or creates one. Without a new file the existing image is kept and no deletion is requested. With one, the uploaded URL is saved and the deletion of the old image is requested. |
| ProductForm.StoreCalls | src/components/products/ProductFormModal.tsx:110-139 | A valid submit awaits its store calls in a fixed order: the old image's deletion first, then the upload, and the save last. |
| ProductForm.RunCalls | src/components/products/ProductFormModal.tsx:106-146 | When a call throws, the calls before it have completed, none after it is made, and the handler reports an error. It reports success (and the dialog closes) exactly when every call completes. |
| ProductForm.FailedReplaceAfterDeleteRequest | src/components/products/ProductFormModal.tsx:110-137 | Replacing a product's image when the upload or the save then fails leaves the deletion call for the old image completed and the record not updated, so the record still points at the image whose deletion was requested. |
| ProductForm.UnchangedEditKeepsProduct | src/components/products/ProductFormModal.tsx:43-131 | For a product already in the shape the form saves (trimmed non-blank texts or null, non-empty brand and category, a non-empty pack label, a non-empty image URL or null), opening it and saving it unchanged writes back its own values, including units per pack through `toString` and `parseInt`. Only `is_active` and `sort_order` are reset. |
| Numbers.ParseIntOfIntToString | src/components/products/ProductFormModal.tsx:51 | `parseInt` reads back any integer written by `toString`. |
| Numbers.ParseIntOfBlank | src/components/products/ProductFormModal.tsx:124-126 | A units text that is non-empty but blank is parsed as NaN. |
| Text.Trim | src/components/products/ProductFormModal.tsx:91 | The trimmed text is the text with a white-space prefix and a white-space suffix cut off. It is empty iff the text is all white space, and otherwise neither starts nor ends with white space. |
| BrandForm.OpenNew | src/app/marcas/page.tsx:103-106 | "Nueva marca" shows the form with no brand being edited and an empty name, so the next submit creates. |
| BrandForm.StartEdit | src/app/marcas/page.tsx:62-66 | Editing shows the form on the brand's id and name. It counts as editing only when the id is non-empty, because the submit tests it for truthiness. |
| BrandForm.TypeName | src/app/marcas/page.tsx:128 | Typing changes only the name, never whether the form creates or updates. |
| BrandForm.Cancel | src/app/marcas/page.tsx:85-89 | The reset hides the form, clears the edited id and empties the name. |
| BrandForm.SubmitRequest | src/app/marcas/page.tsx:34-50 | A blank name sends nothing. Otherwise the trimmed name goes to an update of the edited id when one is set and non-empty, or to a create at sort position `brands.length`. |
| BrandForm.AfterSubmit | src/app/marcas/page.tsx:53-59 | A successful save resets the form. A blank name or a failed write leaves it as it was. |
| BrandForm.EditThenSubmitUpdates | src/app/marcas/page.tsx:43-66 | Editing a brand and submitting a non-blank name updates that brand with the trimmed name. |
| BrandForm.NewThenSubmitCreates | src/app/marcas/page.tsx:47-50 | "Nueva marca" then submit creates a brand at the end of the list, from any form state: the reset clears whatever edit the state held. |
| BrandForm.SavedFormStartsFresh | src/app/marcas/page.tsx:53 | After a successful save the form is hidden. Reopening it with "Nueva marca" starts with an empty name. |
| Services.StoragePathOf | src/lib/services.ts:119-120 | There is no path iff the URL lacks the marker. Otherwise the path is the text after the first marker, up to the next marker or the end. |
| Services.DeletionPath | src/lib/services.ts:119-121 | Deletion removes a non-empty extracted path. A missing or empty one means no storage call. |
| Services.FileExtension | src/lib/services.ts:95 | The extension is the text after the last dot and holds no dot. It is the whole name when there is no dot. |
| Services.FileNameSplitsAtLastDot | src/lib/services.ts:95 | A name with a dot is its stem, the last dot, and the extension. |
| Services.UploadPath | src/lib/services.ts:95-97 | The upload path is "products/", then the id, a dot and the file's extension. |
| Services.UploadPathKeepsExtension | src/lib/services.ts:95-97 | The upload path has the same extension as the chosen file. |
| Services.DeletionPathOfPublicUrl | src/lib/services.ts:108-121 | For a public URL whose endpoint does not complete the marker early, and a non-empty path without the marker, deletion reads back exactly that path. |
| Services.MarkerEndingPrefixShiftsPath | src/lib/services.ts:120 | An endpoint ending in "/product-images" breaks that round trip. For any name without a slash, the path read back gains a "product-images/" head. |
| Services.NoMarkerAfterShortHead | src/lib/services.ts:97 | A path whose head is shorter than the marker and whose tail has no slash never contains the marker. Upload paths are such paths. |
| Services.UploadedImageIsDeletable | src/lib/services.ts:94-121 | An uploaded image can be deleted through its public URL, given an id and file name without slashes. |
| Services.FirstRelated | src/lib/services.ts:24-25 | An array becomes its first row, or none when it is empty. A single row is kept as it is. |
| Services.FirstRelatedIdempotent | src/lib/services.ts:24-25 | Normalising an already normalised relation changes nothing. |
| Services.NormalizeRow | src/lib/services.ts:22-26 | A fetched row keeps all its own columns. Only its brand and category joins are normalised. |
| Services.NormalizeRows | src/lib/services.ts:22-26 | The rows are mapped to a new list of normalised rows, one per fetched row, in the order fetched. |

## Left out

- All calls to the remote data store and file storage:
  - the queries, inserts, updates and deletes;
  - the upload itself and `getPublicUrl`.

  These are network I/O. Their results enter the model as parameters:
  - the fetched product list, or `None` when the fetch fails;
  - `uploadedUrl`;
  - the endpoint of a public URL;
  - the brand form's `Saved`/`Failed` outcome;
  - the index of the store call that throws, if any, in the product dialog's
    submit and in a product's deletion.
- LoadProducts: each completed fetch is applied with the brand and category it
  started with. Fetches are not cancelled when the selection changes, so one
  that completes late can overwrite the list with products of an earlier
  brand. This out-of-order completion is not modelled.
- UploadedImageIsDeletable: `PublicUrl` stands for the storage library's
  `getPublicUrl`, which lies outside the source, and assumes the URL is the
  plain concatenation of endpoint, bucket marker and path. If the library
  percent-encodes the path, a path holding a space or a non-ASCII character
  would not read back unchanged. Such encoding is not modelled.
- RunCalls: a call that throws is treated as having had no effect. A deletion or
  upload that fails after changing the storage is not modelled.
- The database-side filter on active products and the ordering by `sort_order`
  in `getAll`. These happen in the data store.
- React hooks, effects, loading and saving flags, toasts, `confirm`,
  `window.print`, JSX, CSS and the A4 styling. These are presentation, except
  for the constraint on the units input named in the next two lines.
- Submit: the units input is a `type="number"` field with `min="1"` inside a
  form that the browser validates, so for units of 0, a negative number or a
  fraction the browser refuses the submit and `handleSubmit` never runs; text
  that is not a number reaches it as "". `Submit` does not model this browser
  validation and accepts any units text.
- UnchangedEditKeepsProduct: its `Canonical` products include ones whose stored
  units are 0 or negative. The real form cannot be submitted unchanged for
  those, because the browser refuses units below 1; the lemma states what
  `handleSubmit` would save, not that the browser lets it run.
- Image previews and `URL.createObjectURL`. These are browser object URLs with
  no logic.
- `ProductCard.tsx`, `ProductFilters.tsx`, `layout.tsx` and `types.ts`. These are
  presentation and type declarations. `types.ts` only informs the entity
  records.
- `String.prototype.toLowerCase` is the parameter `lower` of the dashboard
  filter, because Unicode case mapping is not modelled.
- `crypto.randomUUID` is the parameter `uuid` of `UploadPath`.
- `ParseInt` covers the decimal and `0x` integer forms of `parseInt` with
  exact integers. Digits past 2^53, where JavaScript numbers lose precision,
  are not rounded.
- `IntToString` writes integers in plain decimal. JavaScript switches to
  exponent form from 10^21 on, which is not modelled.
- When the product dialog fills its form for an edit, it does not clear a file
  picked earlier; only the new-product branch does. `Submit` takes the picked
  file as a parameter, so this carry-over of state is not modelled.
- The catalog page's other handlers (brand and category selectors, catalog
  title) only set state that `LoadProducts` and the pages already take as
  inputs.
- The deletion of a brand is a single store call behind `confirm`, with no
  logic of its own. The deletion of a product is modelled by `DeleteCalls`.
  The `confirm` prompt itself is left out.
- `Paginate` is deterministic because it is a method on values with no
  hidden state. Repeating it on the same input is the same call, so no lemma
  states it.

=== FILE: brand_form.dfy ===
/** The inline brand form of the brands page (`src/app/marcas/page.tsx`): whether it
    is shown, which brand it edits, the typed name, and the request a submit sends. */
module BrandForm {
  import opened Wrappers
  import opened Text
  import opened Entities

  /** `editingId` is null while the form creates a new brand. */
  datatype FormState = FormState(showForm: bool, editingId: Option<string>, formName: string)

  /** The state after `resetForm`: hidden, editing nothing, no name. */
  const Closed: FormState := FormState(false, None, "")

  /** "Nueva marca": reset, then show. Whatever was being edited is dropped. */
  function OpenNew(state: FormState): (next: FormState)
    ensures next.showForm && next.editingId.None? && next.formName == ""
    ensures !IsEditing(next)
  {
    Closed.(showForm := true)
  }

  /** The edit button of a brand row: show the form on that brand's id and name. */
  function StartEdit(state: FormState, brand: Brand): (next: FormState)
    ensures next.showForm && next.editingId == Some(brand.id) && next.formName == brand.name
    ensures IsEditing(next) <==> brand.id != ""
  {
    FormState(true, Some(brand.id), brand.name)
  }

  /** Typing in the name input changes only the name. */
  function TypeName(state: FormState, name: string): (next: FormState)
    ensures next.formName == name
    ensures next.showForm == state.showForm && next.editingId == state.editingId
    ensures IsEditing(next) == IsEditing(state)
  {
    state.(formName := name)
  }

  /** "Cancelar" and a successful save both reset the form. */
  function Cancel(state: FormState): (next: FormState)
    ensures !next.showForm && next.editingId.None? && next.formName == ""
    ensures !IsEditing(next)
  {
    Closed
  }

  /** The write a submit sends to the brand store. */
  datatype BrandRequest = CreateBrand(name: string, sortOrder: int) | UpdateBrand(id: string, name: string)

  /** True when the form edits an existing brand: the id is present and, as a
      JavaScript truthiness test, not empty. */
  predicate IsEditing(state: FormState) {
    state.editingId.Some? && state.editingId.value != ""
  }

  /** The request a submit sends, given how many brands are listed; none for a blank
      name. A new brand goes to the end of the list. */
  function SubmitRequest(state: FormState, brandCount: nat): (request: Option<BrandRequest>)
    ensures request.None? <==> AllSpace(state.formName)
    ensures request.Some? ==> request.value.name == Trim(state.formName) && request.value.name != ""
    ensures request.Some? && request.value.UpdateBrand? ==>
      IsEditing(state) && state.editingId == Some(request.value.id)
    ensures request.Some? && request.value.CreateBrand? ==>
      !IsEditing(state) && request.value.sortOrder == brandCount
  {
    var name := Trim(state.formName);
    if name == "" then None
    else if IsEditing(state) then Some(UpdateBrand(state.editingId.value, name))
    else Some(CreateBrand(name, brandCount))
  }

  /** Whether the store accepted the write. */
  datatype SaveOutcome = Saved | Failed

  /** The form after a submit: reset when the write was accepted, unchanged when the
      name was blank or the write failed, so the user can retry. */
  function AfterSubmit(state: FormState, brandCount: nat, outcome: SaveOutcome): (next: FormState)
    ensures SubmitRequest(state, brandCount).Some? && outcome == Saved ==> next == Closed
    ensures SubmitRequest(state, brandCount).None? || outcome == Failed ==> next == state
  {
    if SubmitRequest(state, brandCount).Some? && outcome == Saved then Cancel(state) else state
  }

  /** Editing a brand and submitting its (possibly retyped) name updates that brand and
      never creates one. */
  lemma EditThenSubmitUpdates(state: FormState, brand: Brand, name: string, brandCount: nat)
    requires brand.id != "" && !AllSpace(name)
    ensures SubmitRequest(TypeName(StartEdit(state, brand), name), brandCount)
      == Some(UpdateBrand(brand.id, Trim(name)))
  {
  }

  /** "Nueva marca" then submit creates a brand at the end of the list, even when the
      form was editing another brand before. */
  lemma NewThenSubmitCreates(state: FormState, name: string, brands: seq<Brand>)
    requires !AllSpace(name)
    ensures SubmitRequest(TypeName(OpenNew(state), name), |brands|)
      == Some(CreateBrand(Trim(name), |brands|))
  {
  }

  /** After a successful save the next "Nueva marca" starts from an empty name and
      creates: no edit leaks into the following submit. */
  lemma SavedFormStartsFresh(state: FormState, brandCount: nat)
    requires !AllSpace(state.formName)
    ensures !AfterSubmit(state, brandCount, Saved).showForm
    ensures SubmitRequest(OpenNew(AfterSubmit(state, brandCount, Saved)), brandCount).None?
  {
  }
}

=== FILE: catalog_pages.dfy ===
/** The printable catalog: the selected products cut into A4 pages of at most nine,
    and the grid each page is laid out on (`src/app/catalogo/page.tsx`). */
module CatalogPages {
  import opened Seqs

  /** Products on one printed page: a 3 x 3 grid. */
  const ProductsPerPage: nat := 9

  function Min(a: int, b: int): int {
    if a < b then a else b
  }

  /** `Array.prototype.slice(start, end)` for non-negative bounds: both are clamped to the length. */
  function Slice<T>(s: seq<T>, start: nat, end: nat): (r: seq<T>)
    ensures start <= |s| && start <= end ==> r == s[start..Min(end, |s|)]
    ensures |s| <= start || end <= start ==> r == []
  {
    var hi := Min(end, |s|);
    if start < hi then s[start..hi] else []
  }

  /** The reference pagination: the first page takes up to nine items, the rest are
      paginated the same way. */
  function Chunks<T>(items: seq<T>): (pages: seq<seq<T>>)
    ensures |pages| == 0 <==> |items| == 0
    decreases |items|
  {
    if |items| == 0 then []
    else
      var k := Min(ProductsPerPage, |items|);
      [items[..k]] + Chunks(items[k..])
  }

  /** The paging loop of the catalog: windows of nine starting at 0, 9, 18, ... while
      the start is inside the selection, each window clamped to the selection's end. */
  method Paginate<T>(items: seq<T>) returns (pages: seq<seq<T>>)
    ensures pages == Chunks(items)
    ensures Flatten(pages) == items
    ensures |pages| == (|items| + ProductsPerPage - 1) / ProductsPerPage
    ensures forall k :: 0 <= k < |pages| - 1 ==> |pages[k]| == ProductsPerPage
    ensures |items| > 0 ==> |pages[|pages| - 1]| == (|items| - 1) % ProductsPerPage + 1
  {
    pages := [];
    var i: nat := 0;
    assert Slice(items, 0, |items|) == items;
    while i < |items|
      invariant pages + Chunks(Slice(items, i, |items|)) == Chunks(items)
      decreases |items| - i
    {
      var window := Slice(items, i, i + ProductsPerPage);
      PagesSoFarStep(items, pages, i);
      pages := pages + [window];
      i := i + ProductsPerPage;
    }
    PagesDone(items, pages, i);
    ChunksShape(items);
  }

  /** Once the start has passed the end, the pages collected are the whole pagination. */
  lemma PagesDone<T>(items: seq<T>, pages: seq<seq<T>>, i: nat)
    requires i >= |items|
    requires pages + Chunks(Slice(items, i, |items|)) == Chunks(items)
    ensures pages == Chunks(items)
  {
    assert Slice(items, i, |items|) == [];
    assert pages + [] == pages;
  }

  /** What the method promises, stated of the reference pagination. */
  lemma ChunksShape<T>(items: seq<T>)
    ensures Flatten(Chunks(items)) == items
    ensures |Chunks(items)| == (|items| + ProductsPerPage - 1) / ProductsPerPage
    ensures forall k :: 0 <= k < |Chunks(items)| - 1 ==> |Chunks(items)[k]| == ProductsPerPage
    ensures |items| > 0 ==> |Chunks(items)[|Chunks(items)| - 1]| == (|items| - 1) % ProductsPerPage + 1
  {
    PagesPartitionItems(items);
    PageCount(items);
    PageSizes(items);
  }

  /** Appending the window at `i` to the pages before `i` leaves the pages from
      `i + 9` on to complete the pagination. */
  lemma PagesSoFarStep<T>(items: seq<T>, pages: seq<seq<T>>, i: nat)
    requires i < |items|
    requires pages + Chunks(Slice(items, i, |items|)) == Chunks(items)
    ensures (pages + [Slice(items, i, i + ProductsPerPage)])
      + Chunks(Slice(items, i + ProductsPerPage, |items|)) == Chunks(items)
  {
    var window := Slice(items, i, i + ProductsPerPage);
    var later := Chunks(Slice(items, i + ProductsPerPage, |items|));
    ChunksStep(items, i);
    assert (pages + [window]) + later == pages + ([window] + later);
  }

  /** The pages of the selection from `i` on: the window at `i`, then the pages from
      `i + 9` on. */
  lemma ChunksStep<T>(items: seq<T>, i: nat)
    requires i < |items|
    ensures Chunks(Slice(items, i, |items|))
      == [Slice(items, i, i + ProductsPerPage)] + Chunks(Slice(items, i + ProductsPerPage, |items|))
  {
    var rest := Slice(items, i, |items|);
    assert rest[..Min(ProductsPerPage, |rest|)] == Slice(items, i, i + ProductsPerPage);
    assert rest[Min(ProductsPerPage, |rest|)..] == Slice(items, i + ProductsPerPage, |items|);
  }

  /** Concatenating the pages in order gives back the selection: nothing is dropped,
      repeated or reordered. */
  lemma {:induction false} PagesPartitionItems<T>(items: seq<T>)
    ensures Flatten(Chunks(items)) == items
    decreases |items|
  {
    if |items| > 0 {
      var k := Min(ProductsPerPage, |items|);
      PagesPartitionItems(items[k..]);
      var pages := Chunks(items);
      assert pages[0] == items[..k] && pages[1..] == Chunks(items[k..]);
      assert items == items[..k] + items[k..];
    }
  }

  /** There are ceil(n / 9) pages. */
  lemma {:induction false} PageCount<T>(items: seq<T>)
    ensures |Chunks(items)| == (|items| + ProductsPerPage - 1) / ProductsPerPage
    decreases |items|
  {
    if |items| > ProductsPerPage {
      PageCount(items[ProductsPerPage..]);
    }
  }

  /** Page `k` holds exactly the items at positions 9k .. 9k + 8 that exist. */
  lemma PageWindows<T>(items: seq<T>)
    ensures |Chunks(items)| == (|items| + ProductsPerPage - 1) / ProductsPerPage
    ensures forall k :: 0 <= k < |Chunks(items)| ==>
      Chunks(items)[k] == items[ProductsPerPage * k .. Min(ProductsPerPage * k + ProductsPerPage, |items|)]
  {
    PageCount(items);
    forall k | 0 <= k < |Chunks(items)|
      ensures Chunks(items)[k] == items[ProductsPerPage * k .. Min(ProductsPerPage * k + ProductsPerPage, |items|)]
    {
      PageWindow(items, k);
    }
  }

  /** Page `k` is the window of nine starting at 9k: page 0 is the first window, and
      page k + 1 of the selection is page k of what follows the first nine. */
  lemma {:induction false} PageWindow<T>(items: seq<T>, k: nat)
    requires k < |Chunks(items)|
    ensures ProductsPerPage * k < |items|
    ensures Chunks(items)[k] == items[ProductsPerPage * k .. Min(ProductsPerPage * k + ProductsPerPage, |items|)]
    decreases k
  {
    var first := Min(ProductsPerPage, |items|);
    var rest := items[first..];
    assert Chunks(items) == [items[..first]] + Chunks(rest);
    if k > 0 {
      assert |rest| > 0 && first == ProductsPerPage;
      PageWindow(rest, k - 1);
      ShiftWindow(items, k);
    }
  }

  /** Window k - 1 of the items after the first page is window k of the selection. */
  lemma ShiftWindow<T>(items: seq<T>, k: nat)
    requires 0 < k && ProductsPerPage < |items|
    requires ProductsPerPage * k < |items|
    ensures var rest := items[ProductsPerPage..];
      rest[ProductsPerPage * (k - 1) .. Min(ProductsPerPage * (k - 1) + ProductsPerPage, |rest|)]
      == items[ProductsPerPage * k .. Min(ProductsPerPage * k + ProductsPerPage, |items|)]
  {
    assert ProductsPerPage == 9;
    var rest := items[ProductsPerPage..];
    var lo := ProductsPerPage * (k - 1);
    var hi := Min(lo + ProductsPerPage, |rest|);
    assert ProductsPerPage * k == lo + ProductsPerPage;
    assert Min(lo + ProductsPerPage + ProductsPerPage, |items|) == hi + ProductsPerPage;
    assert rest[lo..hi] == items[lo + ProductsPerPage .. hi + ProductsPerPage];
  }

  /** Every page but the last is full; the last holds ((n - 1) mod 9) + 1 items. */
  lemma PageSizes<T>(items: seq<T>)
    ensures forall k :: 0 <= k < |Chunks(items)| - 1 ==> |Chunks(items)[k]| == ProductsPerPage
    ensures forall k :: 0 <= k < |Chunks(items)| ==> 1 <= |Chunks(items)[k]| <= ProductsPerPage
    ensures |items| > 0 ==> |Chunks(items)[|Chunks(items)| - 1]| == (|items| - 1) % ProductsPerPage + 1
  {
    PageWindows(items);
    PageCount(items);
  }

  /** Rows of the grid for a page of `count` products: up to three per row, at most three rows. */
  function GridRows(count: int): (rows: nat)
    ensures 1 <= rows <= 3
    ensures 1 <= count <= ProductsPerPage ==> 3 * (rows - 1) < count <= 3 * rows
  {
    if count <= 3 then 1
    else if count <= 6 then 2
    else 3
  }

  /** Columns of the grid for a page of `count` products: for a page of one to nine,
      the fewest columns that hold the page in `GridRows(count)` rows. */
  function GridCols(count: int): (cols: nat)
    ensures 1 <= cols <= 3
    ensures 1 <= count <= ProductsPerPage ==>
      GridRows(count) * (cols - 1) < count <= GridRows(count) * cols
  {
    if count == 1 then 1
    else if count == 2 then 2
    else if count == 4 then 2
    else 3
  }

  /** The grid a page is laid out on. */
  datatype GridShape = GridShape(rows: nat, cols: nat)

  function ShapeFor(count: int): GridShape {
    GridShape(GridRows(count), GridCols(count))
  }

  /** No page of the catalog is given fewer cells than it has products, and no row
      or column of its grid is left empty. */
  lemma GridFitsPage(count: int)
    requires 1 <= count <= ProductsPerPage
    ensures GridRows(count) * GridCols(count) >= count
    ensures (GridRows(count) - 1) * GridCols(count) < count
    ensures GridRows(count) * (GridCols(count) - 1) < count
  {
  }

  /** The table is only meant for pages of up to nine: beyond that the 3 x 3 grid overflows. */
  lemma GridOverflowsBeyondPage(count: int)
    requires count > ProductsPerPage
    ensures GridRows(count) * GridCols(count) < count
  {
  }

  /** One page of the A4 preview: its products, its grid and its "page n of m" footer. */
  datatype PrintedPage<T> = PrintedPage(items: seq<T>, shape: GridShape, number: nat, total: nat)

  /** The A4 preview: the pages of the selection, each with the grid for its own count. */
  function PrintLayout<T>(selected: seq<T>): (printed: seq<PrintedPage<T>>)
    ensures |printed| == (|selected| + ProductsPerPage - 1) / ProductsPerPage
    ensures forall k :: 0 <= k < |printed| ==>
      && printed[k].items == selected[ProductsPerPage * k .. Min(ProductsPerPage * k + ProductsPerPage, |selected|)]
      && 1 <= |printed[k].items| <= ProductsPerPage
      && printed[k].shape == GridShape(GridRows(|printed[k].items|), GridCols(|printed[k].items|))
      && printed[k].shape.rows * printed[k].shape.cols >= |printed[k].items|
      && printed[k].number == k + 1
      && printed[k].total == |printed|
  {
    var pages := Chunks(selected);
    PageWindows(selected);
    PageSizes(selected);
    seq(|pages|, k requires 0 <= k < |pages| =>
      PrintedPage(pages[k], ShapeFor(|pages[k]|), k + 1, |pages|))
  }

  /** Twenty products print on three pages of 9, 9 and 2, the last on a one-row,
      two-column grid; nine fill one 3 x 3 page; one sits alone on a 1 x 1 grid. */
  lemma ExampleLayouts<T>(twenty: seq<T>, nine: seq<T>, one: seq<T>)
    requires |twenty| == 20 && |nine| == 9 && |one| == 1
    ensures var printed := PrintLayout(twenty);
      |printed| == 3 && |printed[0].items| == 9 && |printed[1].items| == 9
      && |printed[2].items| == 2 && printed[2].shape == GridShape(1, 2)
    ensures var printed := PrintLayout(nine);
      |printed| == 1 && printed[0].items == nine && printed[0].shape == GridShape(3, 3)
    ensures var printed := PrintLayout(one);
      |printed| == 1 && printed[0].items == one && printed[0].shape == GridShape(1, 1)
  {
  }
}

=== FILE: catalog_selection.dfy ===
/** Which products go into the catalog: the products of the chosen brand (and category),
    and the set of product ids ticked for printing (`src/app/catalogo/page.tsx`). */
module CatalogSelection {
  import opened Wrappers
  import opened Seqs
  import opened Entities

  /** The ids of a list of products. */
  function Ids(products: seq<Product>): (ids: set<string>)
    ensures forall k :: 0 <= k < |products| ==> products[k].id in ids
    ensures forall id :: id in ids ==> exists k :: 0 <= k < |products| && products[k].id == id
  {
    set p | p in products :: p.id
  }

  /** No two products share an id, as the data store's primary key guarantees. */
  predicate DistinctIds(products: seq<Product>) {
    forall i, j :: 0 <= i < j < |products| ==> products[i].id != products[j].id
  }

  /** The state behind the product picker: the products offered and the ids ticked. */
  datatype Selection = Selection(products: seq<Product>, selected: set<string>)

  /** Loading the products of a brand. With no brand nothing is fetched: the list
      empties and the ticks stay as they were. `fetched` is the result of the fetch,
      `None` when it fails; a failed fetch leaves the list and the ticks as they were.
      Otherwise the fetched products of that brand (and of the category, when one is
      chosen) are offered, all of them ticked. */
  function LoadProducts(current: Selection, fetched: Option<seq<Product>>, brand: string, category: string): (next: Selection)
    ensures brand == "" ==> next == current.(products := [])
    ensures brand != "" && fetched.None? ==> next == current
    ensures brand != "" && fetched.Some? ==> IsSubsequence(next.products, fetched.value)
    ensures brand != "" && fetched.Some? ==> forall p :: p in next.products <==>
      p in fetched.value && p.brandId == brand && (category == "" || p.categoryId == category)
    ensures brand != "" && fetched.Some? ==>
      forall p :: multiset(next.products)[p]
        == if p.brandId == brand && (category == "" || p.categoryId == category) then multiset(fetched.value)[p] else 0
    ensures brand != "" && fetched.Some? ==> next.selected == Ids(next.products)
  {
    if brand == "" then current.(products := [])
    else if fetched.None? then current
    else
      var all := fetched.value;
      var ofBrand := (p: Product) => p.brandId == brand;
      var ofCategory := (p: Product) => p.categoryId == category;
      var ofBoth := (p: Product) => p.brandId == brand && p.categoryId == category;
      var filtered := if category != "" then Filter(ofCategory, Filter(ofBrand, all)) else Filter(ofBrand, all);
      FilterTwice(ofBrand, ofCategory, ofBoth, all);
      FilterIsSubsequence(ofBrand, all);
      FilterIsSubsequence(ofBoth, all);
      Selection(filtered, Ids(filtered))
  }

  /** Ticking or unticking one product: only that id changes membership. */
  function ToggleProduct(selected: set<string>, id: string): (next: set<string>)
    ensures id in next <==> id !in selected
    ensures forall other :: other != id ==> (other in next <==> other in selected)
  {
    if id in selected then selected - {id} else selected + {id}
  }

  /** Toggling the same product twice restores the selection. */
  lemma ToggleProductTwice(selected: set<string>, id: string)
    ensures ToggleProduct(ToggleProduct(selected, id), id) == selected
  {
  }

  /** The "select all / deselect all" button: it clears the ticks when their number
      equals the number of products offered, and otherwise ticks every product. */
  function ToggleAll(selected: set<string>, products: seq<Product>): (next: set<string>)
    ensures next == {} || next == Ids(products)
    ensures |selected| == |products| ==> next == {}
    ensures |selected| != |products| ==> next == Ids(products)
  {
    if |selected| == |products| then {} else Ids(products)
  }

  /** With distinct ids, the number of ids is the number of products. */
  lemma {:induction false} DistinctIdsCount(products: seq<Product>)
    requires DistinctIds(products)
    ensures |Ids(products)| == |products|
    decreases |products|
  {
    if |products| > 0 {
      var first := products[0].id;
      var rest := products[1..];
      assert DistinctIds(rest) by {
        forall i, j | 0 <= i < j < |rest| ensures rest[i].id != rest[j].id {
          assert rest[i] == products[i + 1] && rest[j] == products[j + 1];
        }
      }
      DistinctIdsCount(rest);
      forall id | id in Ids(products) ensures id == first || id in Ids(rest) {
        var k :| 0 <= k < |products| && products[k].id == id;
        if k > 0 {
          assert rest[k - 1] == products[k];
        }
      }
      forall k | 0 <= k < |rest| ensures rest[k].id != first {
        assert rest[k] == products[k + 1];
      }
      assert first !in Ids(rest);
      assert Ids(products) == {first} + Ids(rest);
    }
  }

  /** The size comparison in `ToggleAll` decides "everything is ticked" correctly as long
      as ids are distinct and only offered products are ticked. */
  lemma ToggleAllDecidesAllSelected(selected: set<string>, products: seq<Product>)
    requires DistinctIds(products)
    requires selected <= Ids(products)
    ensures ToggleAll(selected, products) == if selected == Ids(products) then {} else Ids(products)
  {
    DistinctIdsCount(products);
    var all := Ids(products);
    if selected != all {
      var unticked := all - selected;
      assert exists id :: id in all && id !in selected;
      var id :| id in all && id !in selected;
      assert id in unticked;
      assert all == selected + unticked && selected * unticked == {};
      assert |all| == |selected| + |unticked|;
    }
  }

  /** With a repeated id the size comparison misjudges: every product is ticked, yet
      the button ticks everything again instead of clearing. The data store never
      returns such a list, since ids are its primary key (`DistinctIds`); the lemma
      shows why `ToggleAllDecidesAllSelected` needs that assumption. */
  lemma ToggleAllMisjudgesRepeatedIds(p: Product)
    ensures ToggleAll({p.id}, [p, p]) == {p.id}
  {
    assert Ids([p, p]) == {p.id};
  }

  /** Toggling keeps the ticks among the offered products. */
  lemma TogglesStayWithinProducts(selected: set<string>, products: seq<Product>, id: string)
    requires selected <= Ids(products)
    requires id in Ids(products)
    ensures ToggleProduct(selected, id) <= Ids(products)
    ensures ToggleAll(selected, products) <= Ids(products)
  {
  }

  /** The products that are printed: the offered products whose id is ticked, in the
      order they are offered. */
  function SelectedProducts(products: seq<Product>, selected: set<string>): (printed: seq<Product>)
    ensures IsSubsequence(printed, products)
    ensures forall p :: p in printed <==> p in products && p.id in selected
    ensures forall p :: multiset(printed)[p] == if p.id in selected then multiset(products)[p] else 0
  {
    var ticked := (p: Product) => p.id in selected;
    FilterIsSubsequence(ticked, products);
    Filter(ticked, products)
  }

  /** Ticking every offered product prints all of them, in order. */
  lemma AllTickedPrintsAll(products: seq<Product>)
    ensures SelectedProducts(products, Ids(products)) == products
  {
    FilterKeepsAll((p: Product) => p.id in Ids(products), products);
  }
}

=== FILE: dashboard.dfy ===
/** The product list on the dashboard, narrowed by brand, category and a text search
    (`src/app/page.tsx`). */
module Dashboard {
  import opened Wrappers
  import opened Seqs
  import opened Text
  import opened Entities
  import opened ProductForm

  /** The three filter inputs; "" means the filter is off. */
  datatype Filters = Filters(brand: string, category: string, query: string)

  /** What "Limpiar filtros" resets the filters to. */
  const NoFilters := Filters("", "", "")

  /** Whether `p` answers the search `q` (already lower-cased): its lower-cased name,
      brand name or presentation contains `q`. A missing brand or presentation never
      answers. `lower` stands for `String.prototype.toLowerCase`. */
  predicate AnswersSearch(p: Product, q: string, lower: string -> string) {
    || Contains(lower(p.name), q)
    || (p.brand.Some? && Contains(lower(p.brand.value.name), q))
    || (p.presentation.Some? && Contains(lower(p.presentation.value), q))
  }

  /** A product is listed when it passes all three filters. */
  predicate Matches(p: Product, f: Filters, lower: string -> string) {
    && (f.brand == "" || p.brandId == f.brand)
    && (f.category == "" || p.categoryId == f.category)
    && (f.query == "" || AnswersSearch(p, lower(f.query), lower))
  }

  /** The products the dashboard shows, in the order they were loaded. */
  function FilterProducts(products: seq<Product>, f: Filters, lower: string -> string): (shown: seq<Product>)
    ensures IsSubsequence(shown, products)
    ensures forall p :: p in shown <==> p in products && Matches(p, f, lower)
    ensures forall p :: multiset(shown)[p] == if Matches(p, f, lower) then multiset(products)[p] else 0
    ensures f.brand != "" ==> forall p :: p in shown ==> p.brandId == f.brand
    ensures f.category != "" ==> forall p :: p in shown ==> p.categoryId == f.category
    ensures f.query != "" ==> forall p :: p in shown ==> AnswersSearch(p, lower(f.query), lower)
  {
    var keep := (p: Product) => Matches(p, f, lower);
    FilterIsSubsequence(keep, products);
    Filter(keep, products)
  }

  /** With every filter off, and so after "Limpiar filtros", the whole list is shown. */
  lemma ClearedFiltersShowAll(products: seq<Product>, lower: string -> string)
    ensures FilterProducts(products, NoFilters, lower) == products
  {
    FilterKeepsAll((p: Product) => Matches(p, NoFilters, lower), products);
  }

  /** `narrow` agrees with `wide` on every filter `wide` has switched on. */
  predicate Narrows(narrow: Filters, wide: Filters) {
    && (wide.brand == "" || narrow.brand == wide.brand)
    && (wide.category == "" || narrow.category == wide.category)
    && (wide.query == "" || narrow.query == wide.query)
  }

  /** Switching a filter on never adds a product and never reorders the list: the
      narrower result is a subsequence of the wider one. */
  lemma NarrowingNeverEnlarges(products: seq<Product>, narrow: Filters, wide: Filters, lower: string -> string)
    requires Narrows(narrow, wide)
    ensures IsSubsequence(FilterProducts(products, narrow, lower), FilterProducts(products, wide, lower))
  {
    FilterMonotone((p: Product) => Matches(p, narrow, lower), (p: Product) => Matches(p, wide, lower), products);
  }

  /** The calls "Eliminar" makes once confirmed, in the order it awaits them: the
      product's image when it has a non-empty URL, then the product's row. */
  function DeleteCalls(p: Product): (calls: seq<StoreCall>)
    ensures 1 <= |calls| <= 2
    ensures calls[|calls| - 1] == DeleteRecord(p.id)
    ensures |calls| == 2 <==> p.imageUrl.Some? && p.imageUrl.value != ""
    ensures |calls| == 2 ==> calls[0] == DeleteImage(p.imageUrl.value)
  {
    (if p.imageUrl.Some? && p.imageUrl.value != "" then [DeleteImage(p.imageUrl.value)] else [])
    + [DeleteRecord(p.id)]
  }

  /** Deleting a product with an image hands its URL to `deleteImage` first: when
      removing the row then fails, that request has completed while the row, still
      listed, points at the image. */
  lemma FailedDeleteAfterImageRequest(p: Product)
    requires p.imageUrl.Some? && p.imageUrl.value != ""
    ensures var end := RunCalls(DeleteCalls(p), Some(1));
      && !end.succeeded
      && end.completed == [DeleteImage(p.imageUrl.value)]
      && DeleteRecord(p.id) !in end.completed
  {
    var end := RunCalls(DeleteCalls(p), Some(1));
    assert end.completed[0] == DeleteImage(p.imageUrl.value);
  }
}

=== FILE: entities.dfy ===
/** The records the application reads from its data store (`src/lib/types.ts`). */
module Entities {
  import opened Wrappers

  datatype Brand = Brand(
    id: string,
    name: string,
    logoUrl: Option<string>,
    sortOrder: int,
    createdAt: string)

  datatype Category = Category(
    id: string,
    name: string,
    sortOrder: int,
    createdAt: string)

  /** A product row together with its joined brand and category. The joins are
      optional because the data store may return no related row. */
  datatype Product = Product(
    id: string,
    brandId: string,
    categoryId: string,
    name: string,
    description: Option<string>,
    presentation: Option<string>,
    unitsPerPack: Option<int>,
    packLabel: Option<string>,
    imageUrl: Option<string>,
    isActive: bool,
    sortOrder: int,
    createdAt: string,
    updatedAt: string,
    brand: Option<Brand>,
    category: Option<Category>)
}

=== FILE: numbers.dfy ===
/** JavaScript's integer `Number#toString()` and the global `parseInt` (no radix argument),
    restricted to the integers the product form handles. */
module Numbers {
  import opened Wrappers
  import opened Text

  /** A JavaScript number as `parseInt` produces it: `NaN` or an integer. */
  datatype NumberValue = NaN | Int(value: int)

  predicate IsDecimalDigit(c: char) {
    '0' <= c <= '9'
  }

  /** The two radixes `parseInt` picks from when it is given none. */
  datatype Radix = Decimal | Hexadecimal {
    function Base(): nat {
      match this
      case Decimal => 10
      case Hexadecimal => 16
    }
  }

  lemma DigitIsNotSpace(c: char)
    requires IsDecimalDigit(c)
    ensures !IsSpace(c)
  {
  }

  /** The value of `c` as a digit in any radix up to 36; 36 when `c` is no digit. */
  function DigitValue(c: char): (d: nat)
    ensures d <= 36
    ensures IsDecimalDigit(c) <==> d < 10
  {
    if '0' <= c <= '9' then c as int - '0' as int
    else if 'a' <= c <= 'z' then c as int - 'a' as int + 10
    else if 'A' <= c <= 'Z' then c as int - 'A' as int + 10
    else 36
  }

  function DigitChar(d: nat): (c: char)
    requires d < 10
    ensures IsDecimalDigit(c) && DigitValue(c) == d
  {
    ('0' as int + d) as char
  }

  /** The decimal numeral of `n`, most significant digit first. */
  function NatToString(n: nat): (s: string)
    ensures |s| >= 1
    ensures forall k :: 0 <= k < |s| ==> IsDecimalDigit(s[k])
    ensures s[0] == '0' ==> n == 0
    decreases n
  {
    if n < 10 then [DigitChar(n)] else NatToString(n / 10) + [DigitChar(n % 10)]
  }

  /** `n.toString()` for an integer `n`. */
  function IntToString(n: int): (s: string)
    ensures |s| >= 1 && (s[0] == '-' || IsDecimalDigit(s[0]))
  {
    if n < 0 then "-" + NatToString(-n) else NatToString(n)
  }

  /** The length of the longest prefix of `s` made of digits of the given radix. */
  function DigitRun(s: string, radix: Radix): (n: nat)
    ensures n <= |s|
    ensures forall k :: 0 <= k < n ==> DigitValue(s[k]) < radix.Base()
    ensures n < |s| ==> DigitValue(s[n]) >= radix.Base()
    decreases |s|
  {
    if |s| > 0 && DigitValue(s[0]) < radix.Base() then 1 + DigitRun(s[1..], radix) else 0
  }

  /** The value of the numeral `s` in the given radix. */
  function NumeralValue(s: string, radix: Radix): int
    decreases |s|
  {
    if |s| == 0 then 0
    else
      var high := NumeralValue(s[..|s| - 1], radix);
      var shifted := match radix
        case Decimal => 10 * high
        case Hexadecimal => 16 * high;
      shifted + DigitValue(s[|s| - 1])
  }

  /** The magnitude `parseInt` reads after the sign: radix 16 after a `0x` or `0X`
      prefix, radix 10 otherwise, over the longest run of digits; none without a digit. */
  function ParseMagnitude(unsigned: string): (r: Option<int>)
    ensures |unsigned| == 0 ==> r == None
  {
    var hex := |unsigned| >= 2 && unsigned[0] == '0' && (unsigned[1] == 'x' || unsigned[1] == 'X');
    var radix := if hex then Hexadecimal else Decimal;
    var digits := if hex then unsigned[2..] else unsigned;
    var end := DigitRun(digits, radix);
    if end == 0 then None else Some(NumeralValue(digits[..end], radix))
  }

  /** `parseInt(input)` as section 19.2.5 of ECMA-262 defines it when no radix is given:
      skip leading white space, then read a signed magnitude. */
  function ParseInt(input: string): NumberValue
  {
    ParseSigned(TrimStart(input))
  }

  /** An optional sign followed by a magnitude; `NaN` when the magnitude has no digit. */
  function ParseSigned(s: string): NumberValue
  {
    var negative := |s| > 0 && s[0] == '-';
    var unsigned := if |s| > 0 && (s[0] == '+' || s[0] == '-') then s[1..] else s;
    match ParseMagnitude(unsigned)
    case None => NaN
    case Some(v) => Int(if negative then -v else v)
  }

  /** Blank text, which the product form treats as a value, reads as `NaN`. */
  lemma ParseIntOfBlank(input: string)
    requires AllSpace(input)
    ensures ParseInt(input) == NaN
  {
    assert TrimStart(input) == "";
  }

  lemma {:induction false} NumeralOfNatToString(n: nat)
    ensures NumeralValue(NatToString(n), Decimal) == n
    decreases n
  {
    var s := NatToString(n);
    if n >= 10 {
      NumeralOfNatToString(n / 10);
      assert s[..|s| - 1] == NatToString(n / 10);
    }
  }

  /** A run of decimal digits is read whole and carries no hexadecimal prefix. */
  lemma {:induction false} DigitRunOfDigits(digits: string)
    requires forall k :: 0 <= k < |digits| ==> IsDecimalDigit(digits[k])
    ensures DigitRun(digits, Decimal) == |digits|
    ensures !(|digits| >= 2 && digits[0] == '0' && (digits[1] == 'x' || digits[1] == 'X'))
  {
  }

  lemma MagnitudeOfNatToString(n: nat)
    ensures ParseMagnitude(NatToString(n)) == Some(n)
  {
    var digits := NatToString(n);
    DigitRunOfDigits(digits);
    assert digits[..|digits|] == digits;
    NumeralOfNatToString(n);
  }

  /** Reading back a printed integer gives the integer: `parseInt(String(n)) === n`. */
  lemma ParseIntOfIntToString(n: int)
    ensures ParseInt(IntToString(n)) == Int(n)
  {
    if n < 0 {
      ParseIntOfNegative(n);
    } else {
      ParseIntOfNonNegative(n);
    }
  }

  lemma ParseIntOfNonNegative(n: int)
    requires n >= 0
    ensures ParseInt(IntToString(n)) == Int(n)
  {
    var digits := NatToString(n);
    assert IntToString(n) == digits;
    DigitIsNotSpace(digits[0]);
    MagnitudeOfNatToString(n);
    ParseIntOfDigits(digits);
  }

  lemma ParseIntOfNegative(n: int)
    requires n < 0
    ensures ParseInt(IntToString(n)) == Int(n)
  {
    var m: nat := -n;
    SignOfNegative(n, m);
    MagnitudeOfNatToString(m);
    ParseIntOfMinus(IntToString(n), NatToString(m), m);
  }

  /** A negative integer prints as a minus sign followed by the numeral of its magnitude. */
  lemma SignOfNegative(n: int, m: nat)
    requires n < 0 && m == -n
    ensures |IntToString(n)| > 0 && IntToString(n)[0] == '-' && IntToString(n)[1..] == NatToString(m)
  {
    var s := IntToString(n);
    assert s == "-" + NatToString(m);
  }

  /** Text that starts with a digit is read as its magnitude. */
  lemma ParseIntOfDigits(s: string)
    requires |s| > 0 && !IsSpace(s[0]) && IsDecimalDigit(s[0]) && ParseMagnitude(s).Some?
    ensures ParseInt(s) == Int(ParseMagnitude(s).value)
  {
    ParseIntOfUnspaced(s);
    SignedOfUnsigned(s);
  }

  /** A minus sign followed by a magnitude is read as its negation. */
  lemma ParseIntOfMinus(s: string, u: string, m: int)
    requires |s| > 0 && s[0] == '-' && s[1..] == u && ParseMagnitude(u) == Some(m)
    ensures ParseInt(s) == Int(-m)
  {
    ParseIntOfUnspaced(s);
    SignedOfMinus(s, u, m);
  }

  /** Without leading white space, `parseInt` goes straight to the sign. */
  lemma ParseIntOfUnspaced(s: string)
    requires |s| > 0 && !IsSpace(s[0])
    ensures ParseInt(s) == ParseSigned(s)
  {
    TrimStartOfUnspaced(s);
  }

  lemma SignedOfUnsigned(s: string)
    requires |s| > 0 && IsDecimalDigit(s[0]) && ParseMagnitude(s).Some?
    ensures ParseSigned(s) == Int(ParseMagnitude(s).value)
  {
  }

  lemma SignedOfMinus(s: string, u: string, m: int)
    requires |s| > 0 && s[0] == '-' && s[1..] == u && ParseMagnitude(u) == Some(m)
    ensures ParseSigned(s) == Int(-m)
  {
  }
}

=== FILE: product_form.dfy ===
/** The create / edit product dialog: how the form is filled, which image files it
    accepts, the order its checks run in and the record it saves
    (`src/components/products/ProductFormModal.tsx`). */
module ProductForm {
  import opened Wrappers
  import opened Text
  import opened Numbers
  import opened Entities

  /** The pack label used when none is given. */
  const DefaultPackLabel: string := "bulto"

  /** Largest accepted image: 5 MiB. */
  const MaxImageBytes: nat := 5 * 1024 * 1024

  /** The text inputs of the dialog. */
  datatype Form = Form(
    name: string,
    description: string,
    brandId: string,
    categoryId: string,
    presentation: string,
    unitsPerPack: string,
    packLabel: string)

  /** `value || ""` for a nullable text column. */
  function TextOrEmpty(value: Option<string>): string {
    match value
    case None => ""
    case Some(s) => s
  }

  /** `value || "bulto"` for the nullable pack label. */
  function PackLabelOrDefault(value: Option<string>): (shown: string)
    ensures shown != ""
    ensures value.Some? && value.value != "" ==> shown == value.value
    ensures value.None? || value.value == "" ==> shown == DefaultPackLabel
  {
    match value
    case Some(s) => if s != "" then s else DefaultPackLabel
    case None => DefaultPackLabel
  }

  /** `units_per_pack?.toString() || ""`: the units as the form shows them. */
  function UnitsText(units: Option<int>): (text: string)
    ensures text == "" <==> units.None?
  {
    match units
    case None => ""
    case Some(n) => IntToString(n)
  }

  /** `units_per_pack ? parseInt(units_per_pack) : null`: empty text is null, any
      other text is parsed, blank text included. */
  function ParseUnits(text: string): (units: Option<NumberValue>)
    ensures units.None? <==> text == ""
    ensures units.Some? ==> units.value == ParseInt(text)
  {
    if text != "" then Some(ParseInt(text)) else None
  }

  /** Showing stored units in the form and saving them back gives the same number. */
  lemma UnitsRoundTrip(units: Option<int>)
    ensures ParseUnits(UnitsText(units)) == (if units.Some? then Some(Int(units.value)) else None)
  {
    if units.Some? {
      ParseIntOfIntToString(units.value);
    }
  }

  /** A stored optional text that is trimmed and not blank is saved back unchanged. */
  lemma SavedTextRoundTrip(value: Option<string>)
    requires value.None? || SavedText(value.value)
    ensures NullIfEmpty(Trim(TextOrEmpty(value))) == value
  {
  }

  /** The form as the dialog opens: a copy of the edited product, or a blank form that
      preselects the first brand and the first category, if any. */
  function InitialForm(edit: Option<Product>, brands: seq<Brand>, categories: seq<Category>): (form: Form)
    ensures form.packLabel != ""
    ensures edit.None? ==> form.name == "" && form.description == "" && form.presentation == ""
                           && form.unitsPerPack == "" && form.packLabel == DefaultPackLabel
    ensures edit.None? ==> form.brandId == (if |brands| > 0 then brands[0].id else "")
                           && form.categoryId == (if |categories| > 0 then categories[0].id else "")
    ensures edit.Some? ==> form.name == edit.value.name && form.brandId == edit.value.brandId
                           && form.categoryId == edit.value.categoryId
    ensures edit.Some? ==> form.description == TextOrEmpty(edit.value.description)
                           && form.presentation == TextOrEmpty(edit.value.presentation)
                           && form.unitsPerPack == UnitsText(edit.value.unitsPerPack)
                           && form.packLabel == PackLabelOrDefault(edit.value.packLabel)
  {
    match edit
    case Some(p) =>
      Form(
        p.name,
        TextOrEmpty(p.description),
        p.brandId,
        p.categoryId,
        TextOrEmpty(p.presentation),
        UnitsText(p.unitsPerPack),
        PackLabelOrDefault(p.packLabel))
    case None =>
      Form(
        "",
        "",
        if |brands| > 0 then brands[0].id else "",
        if |categories| > 0 then categories[0].id else "",
        "",
        "",
        DefaultPackLabel)
  }

  /** A file chosen in the image picker. */
  datatype ImageFile = ImageFile(name: string, mimeType: string, size: nat)

  datatype ImageError = NotAnImage | TooLarge

  /** The image gate: the type is checked before the size, and exactly 5 MiB passes. */
  function CheckImage(file: ImageFile): (error: Option<ImageError>)
    ensures error.None? <==> StartsWith(file.mimeType, "image/") && file.size <= MaxImageBytes
    ensures error == Some(NotAnImage) <==> !StartsWith(file.mimeType, "image/")
  {
    if !StartsWith(file.mimeType, "image/") then Some(NotAnImage)
    else if file.size > MaxImageBytes then Some(TooLarge)
    else None
  }

  /** The size limit is inclusive: an image of exactly 5 MiB passes, one byte more
      does not, and a non-image is reported as such whatever its size. */
  lemma SizeLimitIsInclusive(name: string, mimeType: string, size: nat)
    ensures StartsWith(mimeType, "image/") ==>
      CheckImage(ImageFile(name, mimeType, 5 * 1024 * 1024)).None?
      && CheckImage(ImageFile(name, mimeType, 5 * 1024 * 1024 + 1)) == Some(TooLarge)
    ensures !StartsWith(mimeType, "image/") ==> CheckImage(ImageFile(name, mimeType, size)) == Some(NotAnImage)
  {
  }

  /** Choosing a file: a rejected file, or no file, leaves the current choice in place. */
  function PickImage(current: Option<ImageFile>, picked: Option<ImageFile>): (next: Option<ImageFile>)
    ensures next == current || (next == picked && picked.Some? && CheckImage(picked.value).None?)
    ensures picked.Some? && CheckImage(picked.value).None? ==> next == picked
  {
    match picked
    case None => current
    case Some(file) => if CheckImage(file).None? then picked else current
  }

  datatype FormError = NameRequired | BrandRequired | CategoryRequired

  /** The checks on submit, in order: a name that is not blank, a brand, a category.
      The first failing check is the one reported. */
  function Validate(form: Form): (error: Option<FormError>)
    ensures error == Some(NameRequired) <==> AllSpace(form.name)
    ensures error == Some(BrandRequired) <==> !AllSpace(form.name) && form.brandId == ""
    ensures error == Some(CategoryRequired) <==>
      !AllSpace(form.name) && form.brandId != "" && form.categoryId == ""
    ensures error.None? <==> !AllSpace(form.name) && form.brandId != "" && form.categoryId != ""
  {
    if Trim(form.name) == "" then Some(NameRequired)
    else if form.brandId == "" then Some(BrandRequired)
    else if form.categoryId == "" then Some(CategoryRequired)
    else None
  }

  /** `text || null`: empty text is stored as null. */
  function NullIfEmpty(text: string): (value: Option<string>)
    ensures value.None? <==> text == ""
    ensures value.Some? ==> value.value == text
  {
    if text == "" then None else Some(text)
  }

  /** The record sent to the data store. */
  datatype ProductPayload = ProductPayload(
    name: string,
    description: Option<string>,
    brandId: string,
    categoryId: string,
    presentation: Option<string>,
    unitsPerPack: Option<NumberValue>,
    packLabel: string,
    imageUrl: Option<string>,
    isActive: bool,
    sortOrder: int)

  /** The saved record: trimmed texts with blanks stored as null, the units parsed
      when given, the default pack label, always active and at sort position 0. */
  function BuildPayload(form: Form, imageUrl: Option<string>): (payload: ProductPayload)
    ensures payload.name == Trim(form.name)
    ensures payload.description.None? <==> AllSpace(form.description)
    ensures payload.description.Some? ==> payload.description.value == Trim(form.description)
    ensures payload.presentation.None? <==> AllSpace(form.presentation)
    ensures payload.presentation.Some? ==> payload.presentation.value == Trim(form.presentation)
    ensures payload.unitsPerPack.None? <==> form.unitsPerPack == ""
    ensures payload.unitsPerPack.Some? ==> payload.unitsPerPack.value == ParseInt(form.unitsPerPack)
    ensures payload.packLabel != ""
    ensures form.packLabel != "" ==> payload.packLabel == form.packLabel
    ensures form.packLabel == "" ==> payload.packLabel == DefaultPackLabel
    ensures payload.brandId == form.brandId && payload.categoryId == form.categoryId
    ensures payload.imageUrl == imageUrl
    ensures payload.isActive && payload.sortOrder == 0
  {
    ProductPayload(
      Trim(form.name),
      NullIfEmpty(Trim(form.description)),
      form.brandId,
      form.categoryId,
      NullIfEmpty(Trim(form.presentation)),
      ParseUnits(form.unitsPerPack),
      if form.packLabel != "" then form.packLabel else DefaultPackLabel,
      imageUrl,
      true,
      0)
  }

  /** `editProduct?.image_url || null`: the edited product's image, if it has a non-empty one. */
  function ExistingImage(edit: Option<Product>): (url: Option<string>)
    ensures url.Some? ==> url.value != "" && edit.Some? && edit.value.imageUrl == url
    ensures edit.Some? && edit.value.imageUrl.Some? && edit.value.imageUrl.value != "" ==> url == edit.value.imageUrl
  {
    if edit.Some? && edit.value.imageUrl.Some? && edit.value.imageUrl.value != ""
    then edit.value.imageUrl
    else None
  }

  datatype SaveTarget = CreateProduct | UpdateProduct(id: string)

  /** What a valid submit does: the old image it deletes, the file it uploads, the record
      it saves and where. */
  datatype SavePlan = SavePlan(
    target: SaveTarget,
    imageToDelete: Option<string>,
    upload: Option<ImageFile>,
    payload: ProductPayload)

  /** Submitting the dialog. `uploadedUrl` stands for the public URL the upload returns. */
  function Submit(form: Form, edit: Option<Product>, imageFile: Option<ImageFile>, uploadedUrl: string): (r: Result<SavePlan, FormError>)
    ensures r.Err? <==> Validate(form).Some?
    ensures r.Err? ==> r.error == Validate(form).value
    ensures r.Ok? ==> r.value.target == (if edit.Some? then UpdateProduct(edit.value.id) else CreateProduct)
    ensures r.Ok? ==> r.value.upload == imageFile && r.value.payload == BuildPayload(form, r.value.payload.imageUrl)
    ensures r.Ok? && imageFile.None? ==>
      r.value.payload.imageUrl == ExistingImage(edit) && r.value.imageToDelete.None?
    ensures r.Ok? && imageFile.Some? ==>
      r.value.payload.imageUrl == Some(uploadedUrl) && r.value.imageToDelete == ExistingImage(edit)
  {
    match Validate(form)
    case Some(error) => Err(error)
    case None =>
      var target := if edit.Some? then UpdateProduct(edit.value.id) else CreateProduct;
      if imageFile.Some? then
        Ok(SavePlan(target, ExistingImage(edit), imageFile, BuildPayload(form, Some(uploadedUrl))))
      else
        Ok(SavePlan(target, None, None, BuildPayload(form, ExistingImage(edit))))
  }

  /** A call the product screens make to the data store and its file storage. */
  datatype StoreCall =
    | DeleteImage(url: string)
    | UploadImage(file: ImageFile)
    | SaveRecord(target: SaveTarget, payload: ProductPayload)
    | DeleteRecord(id: string)

  /** The calls of a valid submit, in the order it awaits them: the old image is
      handed to `deleteImage` first, then the new one uploaded, and the record is saved last. */
  function StoreCalls(plan: SavePlan): (calls: seq<StoreCall>)
    ensures |calls| == 1 + (if plan.imageToDelete.Some? then 1 else 0) + (if plan.upload.Some? then 1 else 0)
    ensures calls[|calls| - 1] == SaveRecord(plan.target, plan.payload)
    ensures plan.imageToDelete.Some? ==> calls[0] == DeleteImage(plan.imageToDelete.value)
    ensures plan.upload.Some? ==> calls[|calls| - 2] == UploadImage(plan.upload.value)
  {
    (if plan.imageToDelete.Some? then [DeleteImage(plan.imageToDelete.value)] else [])
    + (if plan.upload.Some? then [UploadImage(plan.upload.value)] else [])
    + [SaveRecord(plan.target, plan.payload)]
  }

  /** How a handler that awaits a sequence of store calls ends: the calls that
      completed, and whether it reported success (the dialog then closes). */
  datatype RunEnd = RunEnd(completed: seq<StoreCall>, succeeded: bool)

  /** Running the calls when the one at index `failure`, if any, throws: the calls
      before it have completed, none after it is made, and the handler reports an
      error instead of success. */
  function RunCalls(calls: seq<StoreCall>, failure: Option<nat>): (end: RunEnd)
    ensures |end.completed| <= |calls| && end.completed == calls[..|end.completed|]
    ensures end.succeeded <==> failure.None? || failure.value >= |calls|
    ensures end.succeeded <==> end.completed == calls
    ensures !end.succeeded ==> |end.completed| == failure.value
  {
    match failure
    case Some(i) => if i < |calls| then RunEnd(calls[..i], false) else RunEnd(calls, true)
    case None => RunEnd(calls, true)
  }

  /** Replacing the image of a product that has one requests the old image's deletion
      before anything else: when the upload or the save then fails, that request has
      completed while the stored record, not updated, still points at the old image. */
  lemma FailedReplaceAfterDeleteRequest(form: Form, p: Product, file: ImageFile, uploadedUrl: string, failure: nat)
    requires Validate(form).None?
    requires p.imageUrl.Some? && p.imageUrl.value != ""
    requires failure == 1 || failure == 2
    ensures Submit(form, Some(p), Some(file), uploadedUrl).Ok?
    ensures var plan := Submit(form, Some(p), Some(file), uploadedUrl).value;
      var end := RunCalls(StoreCalls(plan), Some(failure));
      && !end.succeeded
      && DeleteImage(p.imageUrl.value) in end.completed
      && SaveRecord(UpdateProduct(p.id), plan.payload) !in end.completed
  {
    ReplacePlan(form, p, file, uploadedUrl);
    var plan := Submit(form, Some(p), Some(file), uploadedUrl).value;
    FailureAfterDelete(plan, failure);
  }

  /** A valid submit that replaces an existing image updates the product, requests the
      deletion of its old image and uploads the new file. */
  lemma ReplacePlan(form: Form, p: Product, file: ImageFile, uploadedUrl: string)
    requires Validate(form).None?
    requires p.imageUrl.Some? && p.imageUrl.value != ""
    ensures var r := Submit(form, Some(p), Some(file), uploadedUrl);
      && r.Ok?
      && r.value.target == UpdateProduct(p.id)
      && r.value.imageToDelete == p.imageUrl
      && r.value.upload == Some(file)
  {
  }

  /** When a plan that requests a deletion and uploads fails at the upload or at the
      save, the deletion request has completed and the save has not. */
  lemma FailureAfterDelete(plan: SavePlan, failure: nat)
    requires plan.imageToDelete.Some? && plan.upload.Some?
    requires failure == 1 || failure == 2
    ensures var end := RunCalls(StoreCalls(plan), Some(failure));
      && !end.succeeded
      && DeleteImage(plan.imageToDelete.value) in end.completed
      && SaveRecord(plan.target, plan.payload) !in end.completed
  {
    var calls := StoreCalls(plan);
    var end := RunCalls(calls, Some(failure));
    assert end.completed[0] == DeleteImage(plan.imageToDelete.value);
    forall k | 0 <= k < |end.completed| ensures !end.completed[k].SaveRecord? {
      assert end.completed[k] == calls[k];
    }
  }

  /** A stored text that the form would save unchanged: trimmed and not blank. */
  predicate SavedText(text: string) {
    text != "" && Trim(text) == text
  }

  /** A product whose stored values are already in the shape the form saves. */
  predicate Canonical(p: Product) {
    && SavedText(p.name)
    && p.brandId != "" && p.categoryId != ""
    && (p.description.None? || SavedText(p.description.value))
    && (p.presentation.None? || SavedText(p.presentation.value))
    && (p.packLabel.Some? && p.packLabel.value != "")
    && (p.imageUrl.None? || p.imageUrl.value != "")
  }

  /** Opening a product for editing and saving without touching anything writes its
      own values back, units per pack included; only `is_active` and `sort_order` are
      reset to true and 0. */
  lemma UnchangedEditKeepsProduct(p: Product, brands: seq<Brand>, categories: seq<Category>, uploadedUrl: string)
    requires Canonical(p)
    ensures var r := Submit(InitialForm(Some(p), brands, categories), Some(p), None, uploadedUrl);
      && r.Ok?
      && r.value.target == UpdateProduct(p.id)
      && r.value.imageToDelete.None? && r.value.upload.None?
      && r.value.payload == ProductPayload(
           p.name, p.description, p.brandId, p.categoryId, p.presentation,
           (match p.unitsPerPack case None => None case Some(n) => Some(Int(n))),
           p.packLabel.value, p.imageUrl, true, 0)
  {
    var form := InitialForm(Some(p), brands, categories);
    EditFormIsValid(p, brands, categories);
    EditFormPayload(p, brands, categories);
    assert ExistingImage(Some(p)) == p.imageUrl;
    KeepImagePlan(form, p, uploadedUrl);
  }

  /** A valid submit of an edit with no new file updates the product and keeps its image. */
  lemma KeepImagePlan(form: Form, p: Product, uploadedUrl: string)
    requires Validate(form).None?
    ensures Submit(form, Some(p), None, uploadedUrl)
      == Ok(SavePlan(UpdateProduct(p.id), None, None, BuildPayload(form, ExistingImage(Some(p)))))
  {
  }

  lemma EditFormIsValid(p: Product, brands: seq<Brand>, categories: seq<Category>)
    requires Canonical(p)
    ensures Validate(InitialForm(Some(p), brands, categories)).None?
  {
    assert !AllSpace(p.name) by { assert Trim(p.name) != ""; }
  }

  lemma EditFormPayload(p: Product, brands: seq<Brand>, categories: seq<Category>)
    requires Canonical(p)
    ensures BuildPayload(InitialForm(Some(p), brands, categories), p.imageUrl) == ProductPayload(
      p.name, p.description, p.brandId, p.categoryId, p.presentation,
      (match p.unitsPerPack case None => None case Some(n) => Some(Int(n))),
      p.packLabel.value, p.imageUrl, true, 0)
  {
    var form := InitialForm(Some(p), brands, categories);
    UnitsRoundTrip(p.unitsPerPack);
    SavedTextRoundTrip(p.description);
    SavedTextRoundTrip(p.presentation);
    assert form.packLabel == p.packLabel.value;
    var payload := BuildPayload(form, p.imageUrl);
    assert payload.name == p.name;
    assert payload.description == p.description && payload.presentation == p.presentation;
  }
}

=== FILE: seqs.dfy ===
/** Order-preserving sequence operations: `Array.prototype.filter` and page flattening. */
module Seqs {

  /** `a` can be obtained from `b` by deleting elements, without reordering. */
  predicate IsSubsequence<T(==)>(a: seq<T>, b: seq<T>)
    decreases |b|
  {
    if |a| == 0 then true
    else if |b| == 0 then false
    else if a[0] == b[0] then IsSubsequence(a[1..], b[1..])
    else IsSubsequence(a, b[1..])
  }

  /** The elements of `s` that satisfy `keep`, in their original order. */
  function Filter<T(!new)>(keep: T -> bool, s: seq<T>): (r: seq<T>)
    ensures |r| <= |s|
    ensures forall x :: x in r <==> x in s && keep(x)
    ensures forall x :: multiset(r)[x] == if keep(x) then multiset(s)[x] else 0
    decreases |s|
  {
    if |s| == 0 then []
    else
      assert s == [s[0]] + s[1..];
      if keep(s[0]) then [s[0]] + Filter(keep, s[1..]) else Filter(keep, s[1..])
  }

  /** Filtering never reorders: the result is a subsequence of the input. */
  lemma {:induction false} FilterIsSubsequence<T(!new)>(keep: T -> bool, s: seq<T>)
    ensures IsSubsequence(Filter(keep, s), s)
    decreases |s|
  {
    if |s| > 0 {
      FilterIsSubsequence(keep, s[1..]);
      var r := Filter(keep, s);
      if keep(s[0]) {
        assert r[0] == s[0] && r[1..] == Filter(keep, s[1..]);
      } else if |r| > 0 {
        assert keep(r[0]);
      }
    }
  }

  /** When every element is kept, filtering is the identity. */
  lemma {:induction false} FilterKeepsAll<T(!new)>(keep: T -> bool, s: seq<T>)
    requires forall k :: 0 <= k < |s| ==> keep(s[k])
    ensures Filter(keep, s) == s
    decreases |s|
  {
    if |s| > 0 {
      FilterKeepsAll(keep, s[1..]);
      assert s == [s[0]] + s[1..];
    }
  }

  /** A stricter predicate keeps a subsequence of what a looser one keeps. */
  lemma {:induction false} FilterMonotone<T(!new)>(strict: T -> bool, loose: T -> bool, s: seq<T>)
    requires forall x :: strict(x) ==> loose(x)
    ensures IsSubsequence(Filter(strict, s), Filter(loose, s))
    decreases |s|
  {
    if |s| > 0 {
      FilterMonotone(strict, loose, s[1..]);
      var a := Filter(strict, s);
      var b := Filter(loose, s);
      if strict(s[0]) {
        assert a[0] == b[0] && a[1..] == Filter(strict, s[1..]) && b[1..] == Filter(loose, s[1..]);
      } else if loose(s[0]) {
        if |a| > 0 {
          assert strict(a[0]);
          assert a[0] != b[0] && b[1..] == Filter(loose, s[1..]);
        }
      }
    }
  }

  /** Filtering twice is filtering once by the conjunction of both predicates. */
  lemma {:induction false} FilterTwice<T(!new)>(first: T -> bool, second: T -> bool, both: T -> bool, s: seq<T>)
    requires forall x :: both(x) == (first(x) && second(x))
    ensures Filter(second, Filter(first, s)) == Filter(both, s)
    decreases |s|
  {
    if |s| > 0 {
      FilterTwice(first, second, both, s[1..]);
    }
  }

  /** The concatenation of a sequence of sequences, in order. */
  function Flatten<T>(pages: seq<seq<T>>): seq<T>
    decreases |pages|
  {
    if |pages| == 0 then [] else pages[0] + Flatten(pages[1..])
  }
}

=== FILE: services.dfy ===
/** The pure fragments of the data-access layer (`src/lib/services.ts`): the storage
    path an image is uploaded to, the path read back from its public URL for deletion,
    and the flattening of joined rows. */
module Services {
  import opened Wrappers
  import opened Text
  import opened Entities

  /** The bucket segment of a public image URL. */
  const Marker: string := "/product-images/"

  /** Folder inside the bucket that uploads go to. */
  const UploadFolder: string := "products/"

  /** `url.split("/product-images/")[1]`: the text between the first marker and the
      next one, or the end of the URL; nothing when the URL has no marker. */
  function StoragePathOf(url: string): (path: Option<string>)
    ensures path.None? <==> IndexOf(url, Marker).None?
    ensures path.Some? ==>
      var rest := url[IndexOf(url, Marker).value + |Marker|..];
      && StartsWith(rest, path.value)
      && (forall j :: 0 <= j < |path.value| ==> !OccursAt(rest, Marker, j))
      && (|path.value| == |rest| || OccursAt(rest, Marker, |path.value|))
  {
    match IndexOf(url, Marker)
    case None => None
    case Some(i) =>
      var rest := url[i + |Marker|..];
      match IndexOf(rest, Marker)
      case None => Some(rest)
      case Some(j) => Some(rest[..j])
  }

  /** The storage path `deleteImage` removes, or nothing when it returns early because
      the path is missing or empty. */
  function DeletionPath(url: string): (path: Option<string>)
    ensures path.Some? ==> path.value != "" && StoragePathOf(url) == path
    ensures path.None? ==> StoragePathOf(url).None? || StoragePathOf(url) == Some("")
  {
    match StoragePathOf(url)
    case None => None
    case Some(p) => if p == "" then None else Some(p)
  }

  /** `fileName.split(".").pop()`: the text after the last dot, or the whole name. */
  function FileExtension(fileName: string): (ext: string)
    ensures '.' !in ext
    ensures |ext| <= |fileName| && ext == fileName[|fileName| - |ext|..]
    ensures '.' !in fileName <==> ext == fileName
    ensures |ext| < |fileName| ==> fileName[|fileName| - |ext| - 1] == '.'
  {
    AfterLast(fileName, '.')
  }

  /** A name with a dot is its stem, the last dot, and the extension. */
  lemma FileNameSplitsAtLastDot(fileName: string)
    requires '.' in fileName
    ensures var ext := FileExtension(fileName);
      fileName == fileName[..|fileName| - |ext| - 1] + "." + ext
  {
    var ext := FileExtension(fileName);
    assert fileName[|fileName| - |ext|..] == ext;
  }

  /** The storage path a new image is uploaded to: a fresh id under the products
      folder, then a dot and the file's extension. `uuid` stands for
      `crypto.randomUUID()`. */
  function UploadPath(uuid: string, fileName: string): (path: string)
    ensures StartsWith(path, UploadFolder)
    ensures path[|UploadFolder|..] == uuid + "." + FileExtension(fileName)
  {
    var path := UploadFolder + (uuid + "." + FileExtension(fileName));
    assert path[..|UploadFolder|] == UploadFolder;
    path
  }

  /** The uploaded file keeps its extension. */
  lemma UploadPathKeepsExtension(uuid: string, fileName: string)
    ensures FileExtension(UploadPath(uuid, fileName)) == FileExtension(fileName)
  {
    var ext := FileExtension(fileName);
    var head := UploadFolder + uuid;
    assert UploadPath(uuid, fileName) == head + "." + ext;
    AfterLastOfDotted(head, ext);
  }

  /** The text after the last dot of `head + "." + ext` is `ext` when `ext` has no dot. */
  lemma AfterLastOfDotted(head: string, ext: string)
    requires '.' !in ext
    ensures AfterLast(head + "." + ext, '.') == ext
  {
    var s := head + "." + ext;
    assert s[|head|] == '.' && s[|head| + 1..] == ext;
    DotFreeSuffixAfterDot(s, AfterLast(s, '.'), |head|);
  }

  /** A dot-free suffix of `s` that is all of `s` or follows a dot is the text after
      the dot at `dot`, when no dot comes later. */
  lemma DotFreeSuffixAfterDot(s: string, r: string, dot: nat)
    requires '.' !in r && |r| <= |s| && r == s[|s| - |r|..]
    requires |r| < |s| ==> s[|s| - |r| - 1] == '.'
    requires dot < |s| && s[dot] == '.' && '.' !in s[dot + 1..]
    ensures r == s[dot + 1..]
  {
    forall k | |s| - |r| <= k < |s| ensures s[k] != '.' {
      assert s[k] == r[k - (|s| - |r|)];
    }
    forall k | dot < k < |s| ensures s[k] != '.' {
      assert s[k] == s[dot + 1..][k - dot - 1];
    }
    assert |r| == |s| - dot - 1;
  }

  /** The public URL of a stored image: the storage endpoint, the bucket, the path. */
  function PublicUrl(endpoint: string, path: string): string {
    endpoint + Marker + path
  }

  /** The marker's first occurrence in `endpoint + Marker` is the appended one. */
  predicate MarkerFirstAfter(endpoint: string) {
    forall j :: 0 <= j < |endpoint| ==> !OccursAt(endpoint + Marker, Marker, j)
  }

  /** Deleting reads back exactly the path that was published, for any path that is
      non-empty and free of the marker. */
  lemma DeletionPathOfPublicUrl(endpoint: string, path: string)
    requires MarkerFirstAfter(endpoint)
    requires path != ""
    requires forall j :: 0 <= j ==> !OccursAt(path, Marker, j)
    ensures DeletionPath(PublicUrl(endpoint, path)) == Some(path)
  {
    var url := PublicUrl(endpoint, path);
    var head := endpoint + Marker;
    assert url == head + path;
    forall j | 0 <= j < |endpoint| ensures !OccursAt(url, Marker, j) {
      assert !OccursAt(head, Marker, j);
      assert j + |Marker| <= |head|;
      assert url[j..j + |Marker|] == head[j..j + |Marker|];
    }
    assert OccursAt(url, Marker, |endpoint|) by {
      assert url[|endpoint|..|endpoint| + |Marker|] == Marker;
    }
    assert IndexOf(url, Marker) == Some(|endpoint|);
    assert url[|endpoint| + |Marker|..] == path;
  }

  /** A prefix that itself ends in "/product-images" breaks the round trip, although
      neither it nor the path contains the whole marker: the first marker then starts
      inside the prefix, and the read-back path gains a "product-images/" head. */
  lemma MarkerEndingPrefixShiftsPath(name: string)
    requires '/' !in name
    ensures DeletionPath(PublicUrl("s/product-images", name)) == Some("product-images/" + name)
  {
    var url := PublicUrl("s/product-images", name);
    var rest := "product-images/" + name;
    assert url == "s" + Marker + rest;
    assert OccursAt(url, Marker, 1) by {
      assert url[1..1 + |Marker|] == Marker;
    }
    assert !OccursAt(url, Marker, 0) by {
      assert url[0] == 's';
    }
    assert url[1 + |Marker|..] == rest;
    NoMarkerAfterShortHead("product-images/", name);
    DeletionPathAfterLastMarker(url, 1, rest);
  }

  /** When the text after the first marker holds no further marker, deletion removes
      all of it. */
  lemma DeletionPathAfterLastMarker(url: string, i: nat, rest: string)
    requires IndexOf(url, Marker) == Some(i) && i + |Marker| <= |url|
    requires url[i + |Marker|..] == rest && rest != "" && IndexOf(rest, Marker).None?
    ensures DeletionPath(url) == Some(rest)
  {
  }

  /** After a head shorter than the marker, a tail without slashes leaves no room for
      the marker, whose two slashes are fifteen characters apart: its closing slash
      would fall in the tail. */
  lemma NoMarkerAfterShortHead(head: string, tail: string)
    requires |head| < |Marker| && '/' !in tail
    ensures forall j :: 0 <= j ==> !OccursAt(head + tail, Marker, j)
  {
    var path := head + tail;
    forall j | 0 <= j ensures !OccursAt(path, Marker, j) {
      if j + |Marker| <= |path| {
        var k := j + |Marker| - 1;
        assert path[k] == tail[k - |head|];
        assert path[j..j + |Marker|][|Marker| - 1] == path[k];
      }
    }
  }

  /** An image uploaded by the product form can later be deleted through its public URL,
      given a file name and id without slashes. */
  lemma UploadedImageIsDeletable(endpoint: string, uuid: string, fileName: string)
    requires MarkerFirstAfter(endpoint)
    requires '/' !in uuid && '/' !in fileName
    ensures DeletionPath(PublicUrl(endpoint, UploadPath(uuid, fileName))) == Some(UploadPath(uuid, fileName))
  {
    var path := UploadPath(uuid, fileName);
    var ext := FileExtension(fileName);
    SuffixHasNo(fileName, ext, '/');
    var tail := uuid + "." + ext;
    JoinHasNo(uuid, ext, '/');
    assert path == UploadFolder + tail by {
      assert path[..|UploadFolder|] == UploadFolder;
    }
    NoMarkerAfterShortHead(UploadFolder, tail);
    DeletionPathOfPublicUrl(endpoint, path);
  }

  lemma SuffixHasNo(s: string, suffix: string, c: char)
    requires c !in s && |suffix| <= |s| && suffix == s[|s| - |suffix|..]
    ensures c !in suffix
  {
    forall k | 0 <= k < |suffix| ensures suffix[k] != c {
      assert suffix[k] == s[|s| - |suffix| + k];
    }
  }

  lemma JoinHasNo(a: string, b: string, c: char)
    requires c !in a && c !in b && c != '.'
    ensures c !in a + "." + b
  {
  }

  /** A joined relation as the data store returns it: a single row (possibly null) or
      an array of rows. */
  datatype Joined<T> = Single(row: Option<T>) | Many(rows: seq<T>)

  /** `Array.isArray(x) ? x[0] : x`: an array gives its first row, or nothing when empty. */
  function FirstRelated<T>(j: Joined<T>): (r: Option<T>)
    ensures j.Many? ==> (r.Some? <==> |j.rows| > 0) && (r.Some? ==> r.value == j.rows[0])
    ensures j.Single? ==> r == j.row
  {
    match j
    case Single(row) => row
    case Many(rows) => if |rows| > 0 then Some(rows[0]) else None
  }

  /** Normalising an already normalised relation changes nothing. */
  lemma FirstRelatedIdempotent<T>(j: Joined<T>)
    ensures FirstRelated(Single(FirstRelated(j))) == FirstRelated(j)
  {
  }

  /** A product row as fetched: its own columns plus the raw brand and category joins. */
  datatype ProductRow = ProductRow(columns: Product, brand: Joined<Brand>, category: Joined<Category>)

  /** One fetched row made into a product: only the two joins are replaced. */
  function NormalizeRow(row: ProductRow): (p: Product)
    ensures p.(brand := row.columns.brand, category := row.columns.category) == row.columns
    ensures p.brand == FirstRelated(row.brand) && p.category == FirstRelated(row.category)
  {
    row.columns.(brand := FirstRelated(row.brand), category := FirstRelated(row.category))
  }

  /** Every fetched row normalised, in the order fetched. */
  function NormalizeRows(rows: seq<ProductRow>): (products: seq<Product>)
    ensures |products| == |rows|
    ensures forall k :: 0 <= k < |rows| ==> products[k] == NormalizeRow(rows[k])
  {
    seq(|rows|, k requires 0 <= k < |rows| => NormalizeRow(rows[k]))
  }
}

=== FILE: sidebar.dfy ===
/** The navigation menu and which of its entries is highlighted
    (`src/components/layout/Sidebar.tsx`). */
module Sidebar {
  import opened Text

  /** A menu entry: its link and its `label` (`labelText`, as `label` is reserved in Dafny). */
  datatype NavItem = NavItem(href: string, labelText: string)

  /** The menu entries, top to bottom. */
  const NavItems: seq<NavItem> := [
    NavItem("/", "Dashboard"),
    NavItem("/marcas", "Marcas"),
    NavItem("/categorias", "Categorías"),
    NavItem("/catalogo", "Generar Catálogo")
  ]

  /** An entry is highlighted on its own path and, unless it is the root, on every
      path that starts with its href, character by character. */
  predicate IsActive(pathname: string, href: string) {
    pathname == href || (href != "/" && StartsWith(pathname, href))
  }

  /** The root entry is highlighted on "/" and nowhere else. */
  lemma RootActiveOnlyAtRoot(pathname: string)
    ensures IsActive(pathname, "/") <==> pathname == "/"
  {
  }

  /** A non-root entry is highlighted exactly on the paths that start with its href. */
  lemma NonRootActiveByPrefix(pathname: string, href: string)
    requires href != "/"
    ensures IsActive(pathname, href) <==> StartsWith(pathname, href)
  {
  }

  /** The prefix test does not respect path segments: "/marcasX" highlights "/marcas". */
  lemma PrefixIgnoresSegments()
    ensures IsActive("/marcasX", "/marcas")
    ensures IsActive("/marcas/123", "/marcas")
  {
  }

  /** If a text starts with two prefixes, the shorter is a prefix of the longer. */
  lemma PrefixesAreNested(s: string, a: string, b: string)
    requires StartsWith(s, a) && StartsWith(s, b) && |a| <= |b|
    ensures StartsWith(b, a)
  {
    assert b[..|a|] == s[..|b|][..|a|];
  }

  /** Two texts that differ at a position both have are not prefixes of one another. */
  lemma DifferAt(a: string, b: string, k: nat)
    requires k < |a| && k < |b| && a[k] != b[k]
    ensures !StartsWith(a, b) && !StartsWith(b, a)
  {
  }

  /** No two menu hrefs other than the root are prefixes of one another. */
  lemma HrefsAreUnnested()
    ensures forall i, j :: 1 <= i < |NavItems| && 1 <= j < |NavItems| && i != j ==>
      !StartsWith(NavItems[i].href, NavItems[j].href)
  {
    DifferAt("/marcas", "/categorias", 1);
    DifferAt("/marcas", "/catalogo", 1);
    DifferAt("/categorias", "/catalogo", 4);
  }

  /** No path highlights two different menu entries. */
  lemma AtMostOneActive(pathname: string)
    ensures forall i, j :: 0 <= i < j < |NavItems| ==>
      !(IsActive(pathname, NavItems[i].href) && IsActive(pathname, NavItems[j].href))
  {
    HrefsAreUnnested();
    forall i, j | 0 <= i < j < |NavItems|
      ensures !(IsActive(pathname, NavItems[i].href) && IsActive(pathname, NavItems[j].href))
    {
      var a := NavItems[i].href;
      var b := NavItems[j].href;
      if i > 0 && IsActive(pathname, a) && IsActive(pathname, b) {
        assert StartsWith(pathname, a) && StartsWith(pathname, b);
        if |a| <= |b| {
          PrefixesAreNested(pathname, a, b);
        } else {
          PrefixesAreNested(pathname, b, a);
        }
      }
    }
  }
}

=== FILE: text.dfy ===
/** The JavaScript string primitives the application relies on, over Unicode scalar values. */
module Text {
  import opened Wrappers

  /** The characters `String.prototype.trim` removes: the WhiteSpace and
      LineTerminator productions of ECMA-262 (sections 12.2 and 12.3). */
  const SpaceChars: set<char> := {
    '\t', '\n', '\U{000B}', '\U{000C}', '\r', ' ', '\U{00A0}', '\U{1680}',
    '\U{2000}', '\U{2001}', '\U{2002}', '\U{2003}', '\U{2004}', '\U{2005}',
    '\U{2006}', '\U{2007}', '\U{2008}', '\U{2009}', '\U{200A}',
    '\U{2028}', '\U{2029}', '\U{202F}', '\U{205F}', '\U{3000}', '\U{FEFF}'
  }

  predicate IsSpace(c: char) {
    c in SpaceChars
  }

  predicate AllSpace(s: string) {
    forall k :: 0 <= k < |s| ==> IsSpace(s[k])
  }

  /** The first index at or after `i` that holds no white space, or `|s|`. */
  function SkipSpace(s: string, i: nat): (n: nat)
    requires i <= |s|
    ensures i <= n <= |s|
    ensures forall k :: i <= k < n ==> IsSpace(s[k])
    ensures n < |s| ==> !IsSpace(s[n])
    decreases |s| - i
  {
    if i < |s| && IsSpace(s[i]) then SkipSpace(s, i + 1) else i
  }

  /** The least index `n <= j` such that `s[n..j]` is all white space. */
  function SkipSpaceBack(s: string, j: nat): (n: nat)
    requires j <= |s|
    ensures n <= j
    ensures forall k :: n <= k < j ==> IsSpace(s[k])
    ensures n > 0 ==> !IsSpace(s[n - 1])
    decreases j
  {
    if j > 0 && IsSpace(s[j - 1]) then SkipSpaceBack(s, j - 1) else j
  }

  /** `s` with its leading white space removed (`trimStart`). */
  function TrimStart(s: string): (r: string)
    ensures |r| <= |s| && r == s[|s| - |r|..]
    ensures |r| > 0 ==> !IsSpace(r[0])
    ensures forall k :: 0 <= k < |s| - |r| ==> IsSpace(s[k])
  {
    s[SkipSpace(s, 0)..]
  }

  /** Text that does not start with white space is its own `trimStart`. */
  lemma TrimStartOfUnspaced(s: string)
    requires |s| > 0 && !IsSpace(s[0])
    ensures TrimStart(s) == s
  {
    assert SkipSpace(s, 0) == 0;
  }

  /** `s` with its trailing white space removed (`trimEnd`). */
  function TrimEnd(s: string): (r: string)
    ensures |r| <= |s| && r == s[..|r|]
    ensures |r| > 0 ==> !IsSpace(r[|r| - 1])
    ensures forall k :: |r| <= k < |s| ==> IsSpace(s[k])
  {
    s[..SkipSpaceBack(s, |s|)]
  }

  /** `r` sits in `s` at index `i`, with only white space before and after it. */
  predicate Infix(s: string, r: string, i: int) {
    0 <= i && i + |r| <= |s| && r == s[i..i + |r|] && AllSpace(s[..i]) && AllSpace(s[i + |r|..])
  }

  /** `String.prototype.trim`: the text between the leading and trailing white space. */
  function Trim(s: string): (r: string)
    ensures r == "" <==> AllSpace(s)
    ensures |r| > 0 ==> !IsSpace(r[0]) && !IsSpace(r[|r| - 1])
    ensures |r| <= |s|
    ensures exists i :: Infix(s, r, i)
  {
    var t := TrimStart(s);
    var r := TrimEnd(t);
    TrimShape(s, t, r);
    assert Infix(s, r, |s| - |t|);
    r
  }

  /** Cutting the leading white space off `s` and then the trailing white space off
      the remainder `t` leaves `s` between a white-space prefix and a white-space suffix. */
  lemma TrimShape(s: string, t: string, r: string)
    requires |t| <= |s| && t == s[|s| - |t|..]
    requires |t| > 0 ==> !IsSpace(t[0])
    requires forall k :: 0 <= k < |s| - |t| ==> IsSpace(s[k])
    requires |r| <= |t| && r == t[..|r|]
    requires |r| > 0 ==> !IsSpace(r[|r| - 1])
    requires forall k :: |r| <= k < |t| ==> IsSpace(t[k])
    ensures r == "" <==> AllSpace(s)
    ensures |r| > 0 ==> !IsSpace(r[0]) && !IsSpace(r[|r| - 1])
    ensures |r| <= |s|
    ensures |s| - |t| + |r| <= |s| && r == s[|s| - |t|..|s| - |t| + |r|]
    ensures AllSpace(s[..|s| - |t|]) && AllSpace(s[|s| - |t| + |r|..])
  {
    var i := |s| - |t|;
    assert |r| > 0 ==> r[0] == t[0] == s[i];
    assert |t| > 0 ==> t[0] == s[i];
    assert r == s[i..i + |r|];
    assert AllSpace(s[..i]);
    forall k | i + |r| <= k < |s| ensures IsSpace(s[k]) {
      assert s[k] == t[k - i];
    }
    assert AllSpace(s[i + |r|..]);
  }

  /** Trimming text that is already trimmed changes nothing. */
  lemma TrimIdempotent(s: string)
    ensures Trim(Trim(s)) == Trim(s)
  {
    var r := Trim(s);
    if |r| > 0 {
      assert TrimStart(r) == r;
      assert TrimEnd(r) == r;
    }
  }

  /** `s.startsWith(prefix)`. */
  predicate StartsWith(s: string, prefix: string) {
    |prefix| <= |s| && s[..|prefix|] == prefix
  }

  /** `sub` occurs in `s` starting at index `i`. */
  predicate OccursAt(s: string, sub: string, i: int) {
    0 <= i && i + |sub| <= |s| && s[i..i + |sub|] == sub
  }

  /** `s.includes(sub)`. */
  predicate Contains(s: string, sub: string) {
    exists i :: 0 <= i <= |s| - |sub| && OccursAt(s, sub, i)
  }

  /** The first index at or after `from` where `sub` occurs in `s` (`s.indexOf(sub, from)`). */
  function IndexOfFrom(s: string, sub: string, from: nat): (r: Option<nat>)
    ensures r.Some? ==> from <= r.value && OccursAt(s, sub, r.value)
    ensures forall j :: from <= j && (r.None? || j < r.value) ==> !OccursAt(s, sub, j)
    decreases |s| - from
  {
    if from + |sub| > |s| then None
    else if s[from..from + |sub|] == sub then Some(from)
    else IndexOfFrom(s, sub, from + 1)
  }

  /** The first index where `sub` occurs in `s`, if any. */
  function IndexOf(s: string, sub: string): (r: Option<nat>)
    ensures r.Some? ==> OccursAt(s, sub, r.value)
    ensures forall j :: 0 <= j && (r.None? || j < r.value) ==> !OccursAt(s, sub, j)
  {
    IndexOfFrom(s, sub, 0)
  }

  /** The last element of `s.split(c)`: the text after the last `c`, or all of `s`. */
  function AfterLast(s: string, c: char): (r: string)
    ensures c !in r
    ensures |r| <= |s| && r == s[|s| - |r|..]
    ensures c !in s <==> r == s
    ensures |r| < |s| ==> s[|s| - |r| - 1] == c
    decreases |s|
  {
    if |s| == 0 then ""
    else if s[|s| - 1] == c then ""
    else
      var r := AfterLast(s[..|s| - 1], c) + [s[|s| - 1]];
      assert s == s[..|s| - 1] + [s[|s| - 1]];
      r
  }
}

=== FILE: wrappers.dfy ===
/** Small value wrappers shared by every module of the model. */
module Wrappers {

  /** An optional value; `None` stands for JavaScript's `null` or `undefined`. */
  datatype Option<+T> = None | Some(value: T)

  /** The outcome of an operation that may be refused with an error. */
  datatype Result<+T, +E> = Ok(value: T) | Err(error: E)
}
